=== FILE: README.md ===
# Lag-feature preparation of the annual-claims forecaster

This project models the one piece of logic the forecasting service implements
itself: turning a historical year of workers'-compensation data into the
feature row a pre-trained regression model expects, and the decisions the two
front-ends take around it.

- `Frame` models the historical table as pandas holds it: ordered column names,
  rows as maps from column name to cell (integer, float, string or NaN),
  pandas' scalar `==` (NaN equals nothing), and the boolean-mask selection
  `df[df["Year"] == year]`.
- `Features.Prepare` is the shared preparation step. It checks for the `Year`
  column, selects the rows for the year, checks the four base columns and
  builds `{f"{c}_lag1": row[c]}` from the first matching row. When the scaler
  publishes `feature_names_in_`, it checks that every expected name was
  produced and projects the row onto that list, in that order. Each failure is
  a typed `PrepError`.
- `Api.Predict` is the `POST /predict` handler. It answers 500 when the
  artifacts did not load. It reads the year with Python's `int()` semantics,
  modelled in `PyInt`. It maps each failure to its status and on success
  reports `forecast_for_year = year + 1`.
- `Dashboard.Render` is one run of the dashboard script. It covers the load
  warning and the year selector: distinct years in first-appearance order,
  defaulting to the last. It also covers the forecast button's branch and
  whether the script still reaches the historical chart section.
- `Seqs` holds the sequence operations both front-ends rely on. These are
  de-duplication in first-appearance order (`Series.unique`, Python dict key
  order) and the order-preserving "absent elements" filter used for every
  missing-column list.

Scaling and prediction are opaque pickled artifacts. They are one function
field, `Resources.score`, which yields the forecast or `None` when either
step raises.

Behaviour of the code that the model keeps as written:
- A base column missing from the data is answered with status 500 (app.py:68-73).
- A scaler without `feature_names_in_` keeps the base column order (app.py:82).
- An exception while scaling or predicting is answered with status 400 (app.py:115-117).
- The first matching row is used when a year occurs more than once (app.py:77).

## Model

| member | source | states |
|---|---|---|
| Seqs.Unique | aggregate_annual_claims_app/ui.py:58 | the distinct years: no repetitions, and exactly the values of the column |
| Seqs.UniqueFirstAppearanceOrder | aggregate_annual_claims_app/ui.py:58 | the distinct values come in the order of their first appearance in the column |
| Seqs.UniqueOfDistinct | aggregate_annual_claims_app/app.py:76-78 | with distinct keys, the dict comprehension keeps every base column once, in base order |
| Seqs.Absent | aggregate_annual_claims_app/app.py:68 | a missing-column list holds exactly the listed names that are not present |
| Seqs.AbsentAppend | aggregate_annual_claims_app/app.py:85-87 | the missing-column filter keeps the order and multiplicity of the names it reports |
| Seqs.AbsentOfDisjoint | aggregate_annual_claims_app/ui.py:88-90 | when none of the names is present, all of them are reported, in order |
| Seqs.FirstIndex | aggregate_annual_claims_app/ui.py:58 | the first-appearance position of a value holds the value and no earlier position does |
| Frame.CellEq | aggregate_annual_claims_app/app.py:54 | pandas `==` on one cell: NaN equals nothing, a string never equals a number, integers and floats compare by numeric value in any combination, strings by content |
| Frame.CellEqSymmetricReflexive | aggregate_annual_claims_app/app.py:54 | the comparison is symmetric, and every cell but NaN equals itself |
| Frame.FirstMatch | aggregate_annual_claims_app/app.py:77 | `iloc[0]` of the selection is a row for the year with no earlier row for it |
| Frame.Select | aggregate_annual_claims_app/app.py:54-56 | the selection holds exactly the rows whose Year equals the request; it is empty iff no row matches, and its first row is the first match |
| Frame.YearValues | aggregate_annual_claims_app/ui.py:58 | the Year column has one cell per row, in row order |
| Frame.ListedYearHasRows | aggregate_annual_claims_app/ui.py:72-74 | any non-NaN year taken from the Year column selects at least one row |
| PyInt.ParseShow | aggregate_annual_claims_app/app.py:53 | `int()` of a string reads back every integer's decimal numeral, surrounded by any of the whitespace it skips (space and U+0009 to U+000D) |
| PyInt.ParseInt | aggregate_annual_claims_app/app.py:53 | `int()` of a string that is only whitespace raises, and a string it accepts contains a decimal digit |
| PyInt.SeparatorRejected | aggregate_annual_claims_app/app.py:53 | a numeral that starts or ends with one of the separators U+001C to U+001F does not convert, although `str.isspace()` accepts them |
| PyInt.ShowNatParses | aggregate_annual_claims_app/app.py:53 | every decimal numeral is accepted digit syntax and denotes its number |
| PyInt.Trunc | aggregate_annual_claims_app/app.py:53 | `int()` of a float truncates toward zero: the result is within one of the input, on the zero side |
| PyInt.ToInt | aggregate_annual_claims_app/app.py:53 | integers convert to themselves, booleans to 0 and 1, floats by truncation toward zero, strings by `int()`'s numeral parse; null, lists, objects, NaN and Infinity do not convert |
| PyInt.TrimStart | aggregate_annual_claims_app/app.py:53 | stripping removes only leading whitespace (space and U+0009 to U+000D) and leaves a non-space first character |
| PyInt.TrimEnd | aggregate_annual_claims_app/app.py:53 | stripping removes only trailing whitespace (space and U+0009 to U+000D) and leaves a non-space last character |
| Features.LagNameInjective | aggregate_annual_claims_app/app.py:77 | two different base columns never produce the same `_lag1` name |
| Features.LagRow | aggregate_annual_claims_app/app.py:76-79 | the lagged row has one column per distinct base column, named `c_lag1` and holding the row's value of `c`, and no other columns |
| Features.Project | aggregate_annual_claims_app/app.py:97 | the projected frame has exactly the expected columns in order, each with the lagged row's value for that name |
| Features.Lookup | aggregate_annual_claims_app/app.py:86 | a name is found iff it is a column of the frame, with that column's value |
| Features.Prepare | aggregate_annual_claims_app/app.py:54-97 | no Year column, no row for the year and missing base columns are each reported exactly when they occur, in that precedence; a missing-base failure lists exactly the absent base columns |
| Features.PrepareSucceedsIff | aggregate_annual_claims_app/app.py:54-97 | preparation succeeds iff the year has a row, all base columns exist and every expected name is a produced lag name |
| Features.PrepareErrorLists | aggregate_annual_claims_app/app.py:68-96 | the two missing-column lists are the absent base columns in base order and the unproduced expected names in the scaler's order |
| Features.PrepareWithoutExpected | aggregate_annual_claims_app/ui.py:96-103 | without a scaler column list, when the year has a row and the base columns exist, preparation succeeds and the vector is the base columns renamed with `_lag1`, in base order, holding the first matching row's values |
| Features.PrepareWithExpected | aggregate_annual_claims_app/ui.py:103-113 | with a scaler column list covered by the lag names, preparation succeeds and the vector's columns are exactly that list in order, each holding the first matching row's value of the base column it lags |
| Features.LagRowNames | aggregate_annual_claims_app/app.py:76-79 | the lagged row's column names are exactly the lag names of the base columns |
| Seqs.NoneAbsent | aggregate_annual_claims_app/app.py:88 | the missing list is empty exactly when every expected name was produced |
| Seqs.AbsentAgrees | aggregate_annual_claims_app/app.py:85-87 | the missing list depends only on which names were produced |
| Api.RequestYear | aggregate_annual_claims_app/app.py:53 | a body that is not an object or lacks `year` yields no year; otherwise the year is `int()` of the `year` member, an integer being taken as is |
| Api.StringYearAccepted | aggregate_annual_claims_app/app.py:52-53 | a `year` sent as a string holding an integer's numeral, with any whitespace `int()` skips around it, is read as that integer |
| Api.FloatYearTruncated | aggregate_annual_claims_app/app.py:52-53 | a `year` sent as a float always converts, truncated toward zero |
| Api.Predict | aggregate_annual_claims_app/app.py:36-117 | an unloaded service answers 500 whatever the body; every status is 200, 400 or 500; 200 comes exactly with a forecast body whose year is the requested year + 1 |
| Api.PredictRejectsBadYear | aggregate_annual_claims_app/app.py:115-117 | a missing or unconvertible year is answered 400 with no feature vector built |
| Api.PredictMapsPreparation | aggregate_annual_claims_app/app.py:54-96 | no row for the year is 400 exactly when the year is absent; missing base and missing scaler columns are 500 with the preparation's list |
| Api.PredictSucceedsIff | aggregate_annual_claims_app/app.py:99-113 | 200 iff loaded, year converts, preparation succeeds and scoring returns; the body reports year + 1 and the scored value |
| Api.PredictServerErrorIff | aggregate_annual_claims_app/app.py:41-96 | 500 iff the artifacts did not load or the data does not fit the scaler's schema |
| Dashboard.YearOptions | aggregate_annual_claims_app/ui.py:58 | the selector's options are distinct and exactly the years of the table |
| Dashboard.Selection | aggregate_annual_claims_app/ui.py:62-66 | the user's pick wins, otherwise the last option is preselected; nothing is selected only when there are no options |
| Dashboard.NextYear | aggregate_annual_claims_app/ui.py:123 | the header year is the selected year + 1 for numbers; adding to a string raises |
| Dashboard.ActualsShown | aggregate_annual_claims_app/ui.py:135-142 | the comparison metric fails when the `Accepted disabling claims` column is absent; with the column present it is drawn iff the selected row's value is neither NaN nor a string |
| Dashboard.Forecast | aggregate_annual_claims_app/ui.py:69-145 | with nothing selected the no-data banner shows and the run goes on; without a forecast, the chart section is reached iff the run neither stopped on a schema error nor raised; a forecast is headed by the year after the selection, and the chart section follows it iff the selected row has a numeric `Accepted disabling claims` value for the comparison metric |
| Dashboard.ForecastMapsPreparation | aggregate_annual_claims_app/ui.py:72-142 | no row for the year gives the no-data banner and the run goes on; absent base columns and unproduced scaler columns give their banners with the exact lists and stop; a scored vector is shown under the next year's header, and the run reaches the chart iff the comparison metric can be drawn; a forecast is shown only with the score of the prepared vector |
| Dashboard.ForecastSucceedsIff | aggregate_annual_claims_app/ui.py:115-123 | a forecast is shown iff preparation succeeds, scoring returns and the header year can be formed, and it shows that score |
| Dashboard.Render | aggregate_annual_claims_app/ui.py:53-172 | the load warning appears iff loading failed; the run raises when building the selector iff the table has no Year column; otherwise the options are the distinct years, the default index is the last, the selection is the user's pick whatever its type, or else the last option, and an unpressed button leaves the forecast area idle and reaches the chart section; after a forecast the chart section is reached iff the comparison metric can be drawn |
| Dashboard.YearOptionsOrder | aggregate_annual_claims_app/ui.py:58-66 | the options come in first-appearance order and the default selection is the last of them |
| Dashboard.NoDataOnlyForMissingYear | aggregate_annual_claims_app/ui.py:72-77 | the "no data" banner appears only for a NaN year or an empty table, never for a year the selector offers |
| Dashboard.ForecastNoDataOnlyForNull | aggregate_annual_claims_app/ui.py:72-77 | a listed year other than NaN always finds its row |
| Dashboard.SchemaErrorStops | aggregate_annual_claims_app/ui.py:88-113 | a schema error lists exactly the absent columns, in order, and the run stops with no forecast, before the chart section |
| Dashboard.ForecastHeaderIsNextYear | aggregate_annual_claims_app/ui.py:123-145 | the forecast header for integer year y reads y + 1, and the chart section follows iff that year's actual count is a number |
| Dashboard.ForecastAgreesWithHandler | aggregate_annual_claims_app/ui.py:96-123 | for an integer year, the button's branch shows a forecast iff the handler answers 200, with the same value and forecast year |
| Dashboard.AgreesWithHandler | aggregate_annual_claims_app/ui.py:72-123 | for an integer year, the dashboard shows a forecast iff the handler answers 200, with the same value and forecast year |

## Left out

- Scaling and prediction (`scaler.transform`, `model.predict`, `prediction[0]`) are opaque floating-point artifacts. They are the uninterpreted `Resources.score`.
- Loading the artifacts and the CSV file (joblib, `pd.read_csv`, path resolution) is I/O. Its outcome is a parameter: `None` when loading failed, otherwise the loaded resources. The dashboard catches only a missing file; a load that raises anything else ends the dashboard script, and that is not modelled.
- Flask's own handling of a body that is not JSON is not modelled. `request.get_json()` sits outside the handler's `try`, so Flask answers such a body with its own error. The handler takes the parsed JSON value.
- Flask routing, `jsonify`, the `/` liveness route, `app.run`, Streamlit page configuration, widgets and the Plotly chart are UI and network glue. Only whether the script reaches the chart section is modelled.
- Dashboard.Render: the chart section itself can raise. ui.py:154 reads the `Accepted disabling claims` column, and a table without it raises there, so no chart appears. `chartReached` says only that the script got to ui.py:145.
- `round(forecast, 2)` and the `:,` formatting in the metrics (ui.py:125-142) are display arithmetic. The metric's failures are modelled: a missing `Accepted disabling claims` column, a NaN or a string there ends the run before the chart section (`Dashboard.ActualsShown`).
- Dashboard.Forecast: a NaN or infinite prediction, on which `int(forecast)` at ui.py:130 would raise, is not modelled. `score` yields a finite real or nothing.
- PyInt.ParseInt: non-ASCII digits and non-ASCII whitespace (such as U+0085 or U+00A0), which Python's `int()` also accepts, are not modelled.
- PyInt.ParseInt: the limit on numeral length that Python 3.11 added is not modelled. By default `int()` raises `ValueError` for a numeral of more than 4300 digits; the model accepts any length.
- PyInt.ParseShow: for the same reason, the round trip is stated for numerals of any length. Under Python 3.11 or later it holds only up to 4300 digits.
- PyInt.ToInt: a JSON number too large for a float (which Python reads as infinity) is modelled as its finite value.
- PyInt.ToInt: a `JFloat` is taken to hold the double the JSON parser rounded the literal to; the model does not restrict it to doubles, nor model that rounding (`2021.99999999999999999` arrives as `2022.0`).
- Dashboard.YearOptions: in a column of mixed integer and float years, pandas would merge 2022 and 2022.0; the model keeps them apart. A CSV column has a single type, so this cannot arise from the data file.
- Dashboard.Selection: with an empty table, the selector is assumed to return no selection. The comparison with `None` then matches no row.
- Dashboard.Render: the user's pick is required to be a year of the table, because the selector offers nothing else.
- The determinism of scoring is not stated; `score` is a function, so it holds by construction.

=== FILE: api.dfy ===
/** The `POST /predict` handler of the HTTP service: checks that the
    artifacts loaded, reads the year from the JSON body, prepares the lag
    features, scores them and maps every outcome to a status code. */
module Api {
  import opened Results
  import opened Frame
  import opened Features
  import opened PyInt

  /** The `error` member of a failure response. `InvalidYear` and
      `ProcessingFailed` are the exception messages the handler's catch-all
      turns into a 400 response. */
  datatype ApiError =
    | NotLoaded
    | InvalidYear
    | ProcessingFailed
    | NoData(year: int)
    | MissingColumns(columns: seq<string>)
    | MissingExpected(columns: seq<string>)

  datatype Body =
    | ForecastBody(forecastForYear: int, predictedDisablingClaims: real)
    | ErrorBody(error: ApiError)

  datatype Response = Response(status: nat, body: Body)

  /** `int(input_data["year"])`: `None` when the body is not a JSON object,
      has no `year` member, or its value does not convert. */
  function RequestYear(body: Json): (y: Option<int>)
    ensures !body.JObject? || "year" !in body.fields ==> y.None?
    ensures body.JObject? && "year" in body.fields && body.fields["year"].JInt? ==>
              y == Some(body.fields["year"].i)
    ensures body.JObject? && "year" in body.fields ==> y == ToInt(body.fields["year"])
  {
    if body.JObject? && "year" in body.fields then ToInt(body.fields["year"]) else None
  }

  /** The response to one request, given what was loaded at start-up
      (`None` when loading failed). */
  function Predict(svc: Option<Resources>, body: Json): (resp: Response)
    requires svc.Some? ==> svc.value.data.Valid()
    ensures svc.None? ==> resp == Response(500, ErrorBody(NotLoaded))
    ensures resp.status == 200 || resp.status == 400 || resp.status == 500
    ensures resp.status == 200 <==> resp.body.ForecastBody?
    ensures resp.body.ForecastBody? ==>
              svc.Some? && RequestYear(body) == Some(resp.body.forecastForYear - 1)
  {
    match svc
    case None => Response(500, ErrorBody(NotLoaded))
    case Some(res) =>
      match RequestYear(body)
      case None => Response(400, ErrorBody(InvalidYear))
      case Some(y) =>
        match Prepare(res.data, Int(y), BaseColumns, res.expected)
        case Err(NoYearColumn) => Response(400, ErrorBody(ProcessingFailed))
        case Err(NoDataForYear(_)) => Response(400, ErrorBody(NoData(y)))
        case Err(MissingBaseColumns(m)) => Response(500, ErrorBody(MissingColumns(m)))
        case Err(MissingExpectedColumns(m)) => Response(500, ErrorBody(MissingExpected(m)))
        case Ok(v) =>
          match res.score(v)
          case None => Response(400, ErrorBody(ProcessingFailed))
          case Some(forecast) => Response(200, ForecastBody(y + 1, forecast))
  }

  /** A `year` sent as a string, say `" 2022 "`, is read as the integer it
      spells, whatever whitespace `int()` skips surrounds it. */
  lemma StringYearAccepted(n: int, pre: string, post: string)
    requires AllSpace(pre) && AllSpace(post)
    ensures RequestYear(JObject(map["year" := JString(pre + Show(n) + post)])) == Some(n)
  {
    ParseShow(n, pre, post);
  }

  /** A `year` sent as a float is truncated toward zero: `2022.7` is 2022
      and `-0.5` is 0. */
  lemma FloatYearTruncated(f: real)
    ensures var y := RequestYear(JObject(map["year" := JFloat(f)]));
            && y.Some?
            && (f >= 0.0 ==> y.value as real <= f < y.value as real + 1.0)
            && (f < 0.0 ==> y.value as real - 1.0 < f <= y.value as real)
  {
  }

  /** With the artifacts loaded, a body whose `year` is absent or does not
      convert to an integer is answered 400 before any row is looked up. */
  lemma PredictRejectsBadYear(svc: Option<Resources>, body: Json)
    requires svc.Some? && svc.value.data.Valid()
    requires RequestYear(body).None?
    ensures Predict(svc, body) == Response(400, ErrorBody(InvalidYear))
  {
  }

  /** For a valid year, each preparation failure gets its own status: no row
      for the year is 400 (checked before any column), missing base columns
      and missing scaler columns are 500 and carry the preparation's list. */
  lemma PredictMapsPreparation(res: Resources, body: Json, y: int)
    requires res.data.Valid()
    requires RequestYear(body) == Some(y)
    ensures var resp := Predict(Some(res), body);
            && (resp == Response(400, ErrorBody(NoData(y))) <==>
                  YearColumn in res.data.columns && !HasYear(res.data.rows, Int(y)))
            && (forall m :: resp == Response(500, ErrorBody(MissingColumns(m))) <==>
                  Prepare(res.data, Int(y), BaseColumns, res.expected) == Err(MissingBaseColumns(m)))
            && (forall m :: resp == Response(500, ErrorBody(MissingExpected(m))) <==>
                  Prepare(res.data, Int(y), BaseColumns, res.expected) == Err(MissingExpectedColumns(m)))
  {
    var r := Prepare(res.data, Int(y), BaseColumns, res.expected);
    var resp := Predict(Some(res), body);
    match r
    case Ok(v) =>
      assert resp.status == 200 || resp == Response(400, ErrorBody(ProcessingFailed));
    case Err(NoYearColumn) =>
      assert resp == Response(400, ErrorBody(ProcessingFailed));
    case Err(NoDataForYear(_)) =>
      assert resp == Response(400, ErrorBody(NoData(y)));
    case Err(MissingBaseColumns(m)) =>
      assert resp == Response(500, ErrorBody(MissingColumns(m)));
    case Err(MissingExpectedColumns(m)) =>
      assert resp == Response(500, ErrorBody(MissingExpected(m)));
  }

  /** A request succeeds exactly when the artifacts loaded, the year
      converts, preparation yields a vector and scoring it returns a value;
      the response then reports that value for the following year. */
  lemma PredictSucceedsIff(svc: Option<Resources>, body: Json)
    requires svc.Some? ==> svc.value.data.Valid()
    ensures var resp := Predict(svc, body);
            resp.status == 200 <==>
              && svc.Some?
              && RequestYear(body).Some?
              && Prepare(svc.value.data, Int(RequestYear(body).value), BaseColumns, svc.value.expected).Ok?
              && svc.value.score(Prepare(svc.value.data, Int(RequestYear(body).value), BaseColumns, svc.value.expected).value).Some?
    ensures var resp := Predict(svc, body);
            resp.status == 200 ==>
              && resp.body.forecastForYear == RequestYear(body).value + 1
              && Some(resp.body.predictedDisablingClaims) ==
                   svc.value.score(Prepare(svc.value.data, Int(RequestYear(body).value), BaseColumns, svc.value.expected).value)
  {
  }

  /** Status 500 means the service is unavailable or the data does not fit
      the scaler's schema; every other failure is a 400. */
  lemma PredictServerErrorIff(svc: Option<Resources>, body: Json)
    requires svc.Some? ==> svc.value.data.Valid()
    ensures Predict(svc, body).status == 500 <==>
              || svc.None?
              || (&& RequestYear(body).Some?
                  && var r := Prepare(svc.value.data, Int(RequestYear(body).value), BaseColumns, svc.value.expected);
                     r.Err? && (r.error.MissingBaseColumns? || r.error.MissingExpectedColumns?))
  {
  }
}

=== FILE: dashboard.dfy ===
/** The dashboard script, one run of it: a warning when the artifacts did
    not load, otherwise the year selector, the result of the "Generate
    Forecast" button when pressed, and the historical chart. */
module Dashboard {
  import opened Results
  import opened Seqs
  import opened Frame
  import opened Features
  import Api
  import PyInt

  /** What the forecast area shows after a run. */
  datatype Panel =
    | Idle                                          // the button was not pressed
    | NoDataBanner(year: Option<Cell>)              // no row for the selection
    | MissingColumnsBanner(columns: seq<string>)    // base columns absent; the run stops
    | MissingExpectedBanner(columns: seq<string>)   // scaler columns not produced; the run stops
    | ForecastPanel(forYear: Cell, forecast: real)  // the header year and the prediction
    | Crashed                                       // an uncaught exception ended the run

  /** The column holding each year's count of accepted disabling claims. */
  const ActualsColumn: string := "Accepted disabling claims"

  /** Whether the comparison metric under a forecast can be drawn. It reads
      the selected year's actual count from the first matching row,
      converts it with `int()` and subtracts it from the forecast: a missing
      column raises `KeyError`, NaN raises `ValueError` and a string raises
      `TypeError`, each before the chart section. */
  function ActualsShown(t: Table, y: Cell): (shown: bool)
    requires t.Valid() && HasYear(t.rows, y)
    ensures ActualsColumn !in t.columns ==> !shown
    ensures ActualsColumn in t.columns ==>
              && ActualsColumn in SourceRow(t, y)
              && (shown <==> !SourceRow(t, y)[ActualsColumn].Null? && !SourceRow(t, y)[ActualsColumn].Text?)
  {
    assert SourceRow(t, y).Keys == set c | c in t.columns;
    var row := SourceRow(t, y);
    ActualsColumn in row && (row[ActualsColumn].Int? || row[ActualsColumn].Float?)
  }

  /** The page a run produces. `Halted` is a run that raised when reading
      the `Year` column for the selector, after the sidebar header was
      drawn. `chartReached` says whether the script went on to the
      historical chart section. */
  datatype Screen =
    | LoadWarning
    | Halted
    | Page(options: seq<Cell>, defaultIndex: int, selected: Option<Cell>, panel: Panel, chartReached: bool)

  /** The selector's options: the distinct years in order of first
      appearance (`historical_data["Year"].unique()`). */
  function YearOptions(t: Table): (options: seq<Cell>)
    requires t.Valid() && YearColumn in t.columns
    ensures Distinct(options)
    ensures forall y :: y in options <==> y in YearValues(t)
  {
    Unique(YearValues(t))
  }

  /** The selection: the user's choice, otherwise the default, the last
      option; nothing when there are no options. */
  function Selection(options: seq<Cell>, choice: Option<Cell>): (s: Option<Cell>)
    ensures choice.Some? ==> s == choice
    ensures choice.None? && |options| > 0 ==> s == Some(options[|options| - 1])
    ensures s.None? <==> choice.None? && |options| == 0
  {
    if choice.Some? then choice
    else if |options| > 0 then Some(options[|options| - 1])
    else None
  }

  /** `year_to_use + 1` for the header: numbers advance by one, adding to a
      string raises (`None`), NaN stays NaN. */
  function NextYear(c: Cell): (r: Option<Cell>)
    ensures c.Int? ==> r == Some(Int(c.i + 1))
    ensures c.Float? ==> r == Some(Float(c.f + 1.0))
    ensures r.None? <==> c.Text?
  {
    match c
    case Int(y) => Some(Int(y + 1))
    case Float(f) => Some(Float(f + 1.0))
    case Text(_) => None
    case Null => Some(Null)
  }

  /** The button's branch: the panel, and whether the script goes on to
      the chart section (`st.stop()` and uncaught exceptions end the run).
      A forecast, once drawn, is followed by the comparison metric, which
      can still raise. */
  function Forecast(res: Resources, selected: Option<Cell>): (r: (Panel, bool))
    requires res.data.Valid()
    ensures !r.0.ForecastPanel? ==>
              (r.1 <==> !(r.0.MissingColumnsBanner? || r.0.MissingExpectedBanner? || r.0.Crashed?))
    ensures r.0 != Idle
    ensures selected.None? ==> r == (NoDataBanner(None), true)
    ensures r.0.ForecastPanel? ==> selected.Some? && NextYear(selected.value) == Some(r.0.forYear)
    ensures r.0.ForecastPanel? ==>
              && HasYear(res.data.rows, selected.value)
              && (r.1 <==> ActualsShown(res.data, selected.value))
  {
    match selected
    case None => (NoDataBanner(None), true)
    case Some(y) =>
      match Prepare(res.data, y, BaseColumns, res.expected)
      case Err(NoYearColumn) => (Crashed, false)
      case Err(NoDataForYear(_)) => (NoDataBanner(Some(y)), true)
      case Err(MissingBaseColumns(m)) => (MissingColumnsBanner(m), false)
      case Err(MissingExpectedColumns(m)) => (MissingExpectedBanner(m), false)
      case Ok(v) =>
        match res.score(v)
        case None => (Crashed, false)
        case Some(forecast) =>
          match NextYear(y)
          case None => (Crashed, false)
          case Some(header) => (ForecastPanel(header, forecast), ActualsShown(res.data, y))
  }

  /** One run of the script. `choice` is the year the user picked in the
      selector, `None` to keep the default; the selector only offers years
      from the `Year` column. */
  function Render(svc: Option<Resources>, choice: Option<Cell>, pressed: bool): (s: Screen)
    requires svc.Some? ==> svc.value.data.Valid()
    requires choice.Some? ==>
               svc.Some? && YearColumn in svc.value.data.columns && choice.value in YearValues(svc.value.data)
    ensures svc.None? <==> s == LoadWarning
    ensures s == Halted <==> svc.Some? && YearColumn !in svc.value.data.columns
    ensures s.Page? ==> svc.Some? && YearColumn in svc.value.data.columns && s.options == YearOptions(svc.value.data)
    ensures s.Page? ==> s.defaultIndex == |s.options| - 1
    ensures s.Page? ==> s.selected == Selection(s.options, choice)
    ensures s.Page? && !pressed ==> s.panel == Idle && s.chartReached
    ensures s.Page? && s.panel.ForecastPanel? ==>
              && s.selected.Some? && HasYear(svc.value.data.rows, s.selected.value)
              && (s.chartReached <==> ActualsShown(svc.value.data, s.selected.value))
    ensures s.Page? && pressed ==> (s.panel, s.chartReached) == Forecast(svc.value, s.selected)
  {
    match svc
    case None => LoadWarning
    case Some(res) =>
      if YearColumn !in res.data.columns then Halted
      else
        var options := YearOptions(res.data);
        var selected := Selection(options, choice);
        var (panel, chart) := if pressed then Forecast(res, selected) else (Idle, true);
        Page(options, |options| - 1, selected, panel, chart)
  }

  /** The selector lists each year once, in the order the years first
      appear in the table, and preselects the last of them. */
  lemma YearOptionsOrder(svc: Option<Resources>, pressed: bool)
    requires svc.Some? && svc.value.data.Valid() && YearColumn in svc.value.data.columns
    ensures var s := Render(svc, None, pressed);
            && s.Page?
            && Distinct(s.options)
            && (forall y :: y in s.options <==> y in YearValues(svc.value.data))
            && (forall i, j :: 0 <= i < j < |s.options| ==>
                  FirstIndex(YearValues(svc.value.data), s.options[i]) <
                  FirstIndex(YearValues(svc.value.data), s.options[j]))
            && (|s.options| > 0 ==> s.selected == Some(s.options[s.defaultIndex]))
  {
    UniqueFirstAppearanceOrder(YearValues(svc.value.data));
  }

  /** Since the selector only offers years from the table, the "no data"
      banner appears only for a missing (NaN) year or an empty table. */
  lemma NoDataOnlyForMissingYear(svc: Option<Resources>, choice: Option<Cell>)
    requires svc.Some? ==> svc.value.data.Valid()
    requires choice.Some? ==>
               svc.Some? && YearColumn in svc.value.data.columns && choice.value in YearValues(svc.value.data)
    ensures var s := Render(svc, choice, true);
            s.Page? && s.panel.NoDataBanner? ==>
              s.panel.year.None? || s.panel.year == Some(Null)
  {
    var s := Render(svc, choice, true);
    if s.Page? && s.selected.Some? {
      var t := svc.value.data;
      assert s.selected.value in YearValues(t) by {
        if choice.None? {
          assert s.selected.value in YearOptions(t);
        }
      }
      ForecastNoDataOnlyForNull(svc.value, s.selected.value);
    }
  }

  lemma ForecastNoDataOnlyForNull(res: Resources, y: Cell)
    requires res.data.Valid() && YearColumn in res.data.columns
    requires y in YearValues(res.data)
    ensures Forecast(res, Some(y)).0.NoDataBanner? ==> y.Null?
  {
    if !y.Null? {
      ListedYearHasRows(res.data, y);
    }
  }

  /** Which panel each outcome of the preparation produces: no row for the
      year gives the "no data" banner and the run goes on; absent base
      columns and unproduced scaler columns give their banners with the
      exact lists and stop the run; a prepared vector that scores shows
      that score under the next year's header. */
  lemma ForecastMapsPreparation(res: Resources, y: Cell)
    requires res.data.Valid()
    ensures var r := Prepare(res.data, y, BaseColumns, res.expected);
            var f := Forecast(res, Some(y));
            && (YearColumn !in res.data.columns ==> f == (Crashed, false))
            && (YearColumn in res.data.columns && !HasYear(res.data.rows, y) <==>
                  f == (NoDataBanner(Some(y)), true))
            && (YearColumn in res.data.columns && HasYear(res.data.rows, y)
                && (exists c :: c in BaseColumns && c !in res.data.columns) ==>
                  f == (MissingColumnsBanner(Absent(BaseColumns, res.data.columns)), false))
            && (YearColumn in res.data.columns && HasYear(res.data.rows, y)
                && (forall c :: c in BaseColumns ==> c in res.data.columns)
                && res.expected.Some?
                && (exists e :: e in res.expected.value && e !in LagNames(BaseColumns)) ==>
                  f == (MissingExpectedBanner(Absent(res.expected.value, LagNames(BaseColumns))), false))
            && (r.Ok? && res.score(r.value).Some? && NextYear(y).Some? ==>
                  && HasYear(res.data.rows, y)
                  && f == (ForecastPanel(NextYear(y).value, res.score(r.value).value), ActualsShown(res.data, y)))
            && (f.0.ForecastPanel? ==> r.Ok? && res.score(r.value) == Some(f.0.forecast))
  {
    PrepareErrorLists(res.data, y, BaseColumns, res.expected);
    PrepareSucceedsIff(res.data, y, BaseColumns, res.expected);
  }

  /** The button's branch shows a forecast exactly when preparation
      succeeds, the vector scores and the header year can be formed; it then
      shows that score under the next year. */
  lemma ForecastSucceedsIff(res: Resources, y: Cell)
    requires res.data.Valid()
    ensures var r := Prepare(res.data, y, BaseColumns, res.expected);
            var f := Forecast(res, Some(y));
            && (f.0.ForecastPanel? <==> r.Ok? && res.score(r.value).Some? && NextYear(y).Some?)
            && (f.0.ForecastPanel? ==> f.0 == ForecastPanel(NextYear(y).value, res.score(r.value).value))
  {
  }

  /** A schema error is shown with exactly the absent columns and ends the
      run: nothing is scaled, no forecast and no chart follow. */
  lemma SchemaErrorStops(res: Resources, selected: Option<Cell>)
    requires res.data.Valid()
    ensures var (panel, chart) := Forecast(res, selected);
            panel.MissingColumnsBanner? ==>
              && !chart
              && panel.columns == Absent(BaseColumns, res.data.columns)
              && |panel.columns| > 0
    ensures var (panel, chart) := Forecast(res, selected);
            panel.MissingExpectedBanner? ==>
              && !chart
              && res.expected.Some?
              && panel.columns == Absent(res.expected.value, LagNames(BaseColumns))
              && |panel.columns| > 0
  {
    if selected.Some? {
      PrepareErrorLists(res.data, selected.value, BaseColumns, res.expected);
    }
  }

  /** The forecast header names the year after the selected one, and the
      chart section follows exactly when the comparison metric can be drawn. */
  lemma ForecastHeaderIsNextYear(res: Resources, y: int)
    requires res.data.Valid()
    ensures var (panel, chart) := Forecast(res, Some(Int(y)));
            panel.ForecastPanel? ==>
              && panel.forYear == Int(y + 1)
              && HasYear(res.data.rows, Int(y))
              && (chart <==> ActualsShown(res.data, Int(y)))
  {
  }

  /** The button's branch and the HTTP handler agree: for an integer year,
      the branch shows a forecast exactly when the handler answers 200, with
      the same value and the same forecast year. */
  lemma ForecastAgreesWithHandler(res: Resources, y: int)
    requires res.data.Valid()
    ensures var shown := Forecast(res, Some(Int(y)));
            var resp := Api.Predict(Some(res), PyInt.JObject(map["year" := PyInt.JInt(y)]));
            && (shown.0.ForecastPanel? <==> resp.status == 200)
            && (resp.status == 200 ==>
                  shown.0 == ForecastPanel(Int(resp.body.forecastForYear), resp.body.predictedDisablingClaims))
  {
    var body := PyInt.JObject(map["year" := PyInt.JInt(y)]);
    assert Api.RequestYear(body) == Some(y);
    assert NextYear(Int(y)) == Some(Int(y + 1));
    ForecastSucceedsIff(res, Int(y));
    Api.PredictSucceedsIff(Some(res), body);
  }

  /** The dashboard and the HTTP handler agree: for an integer year picked
      in the selector, the dashboard shows a forecast exactly when the
      handler answers 200, with the same value and the same forecast year. */
  lemma AgreesWithHandler(res: Resources, y: int)
    requires res.data.Valid() && YearColumn in res.data.columns
    requires Int(y) in YearValues(res.data)
    ensures var s := Render(Some(res), Some(Int(y)), true);
            var resp := Api.Predict(Some(res), PyInt.JObject(map["year" := PyInt.JInt(y)]));
            && s.Page?
            && (s.panel.ForecastPanel? <==> resp.status == 200)
            && (resp.status == 200 ==>
                  s.panel == ForecastPanel(Int(resp.body.forecastForYear), resp.body.predictedDisablingClaims))
  {
    var s := Render(Some(res), Some(Int(y)), true);
    assert s.Page? && s.selected == Some(Int(y));
    assert s.panel == Forecast(res, Some(Int(y))).0;
    ForecastAgreesWithHandler(res, y);
  }
}

=== FILE: features.dfy ===
/** The lag-feature preparation shared by the HTTP handler and the
    dashboard: pick the requested year's row, rename the four base columns
    to `<col>_lag1`, and align the result with the scaler's expected
    column order. */
module Features {
  import opened Results
  import opened Seqs
  import opened Frame

  /** The four observed columns whose previous-year values feed the model. */
  const BaseColumns: seq<string> := [
    "Subject employees",
    "Denied claims",
    "Fatality claims",
    "Rate: accepted disabling claims per 100 employees"
  ]

  /** The marker appended to a base column's name to form its feature name. */
  const LagSuffix: string := "_lag1"

  function LagName(c: string): string {
    c + LagSuffix
  }

  /** Distinct columns give distinct feature names. */
  lemma LagNameInjective()
    ensures forall a, b :: LagName(a) == LagName(b) ==> a == b
  {
    forall a, b | LagName(a) == LagName(b)
      ensures a == b
    {
      assert |a| == |b|;
      assert a == LagName(a)[..|a|];
      assert b == LagName(b)[..|b|];
    }
  }

  /** One named column of the single-row feature frame. */
  datatype Feature = Feature(name: string, value: Cell)

  /** The single-row frame handed to the scaler, columns in order. */
  type FeatureVector = seq<Feature>

  function Names(v: FeatureVector): (ns: seq<string>)
    ensures |ns| == |v|
    ensures forall k :: 0 <= k < |v| ==> ns[k] == v[k].name
  {
    seq(|v|, k requires 0 <= k < |v| => v[k].name)
  }

  /** The value of the first column called `name`, if any. */
  function Lookup(v: FeatureVector, name: string): (r: Option<Cell>)
    ensures r.Some? <==> name in Names(v)
    ensures r.Some? ==> r.value == v[FirstIndex(Names(v), name)].value
  {
    if |v| == 0 then None
    else if v[0].name == name then Some(v[0].value)
    else
      assert Names(v[1..]) == Names(v)[1..];
      Lookup(v[1..], name)
  }

  /** The lagged row `{f"{c}_lag1": row[c] for c in base}`: a Python dict,
      so a base column listed twice yields one key, at its first position. */
  function LagRow(base: seq<string>, row: Row): (v: FeatureVector)
    requires forall c :: c in base ==> c in row
    ensures Distinct(Names(v))
    ensures |v| == |Unique(base)|
    ensures forall c :: c in base ==> Lookup(v, LagName(c)) == Some(row[c])
    ensures forall n :: n in Names(v) <==> exists c :: c in base && n == LagName(c)
  {
    var cols := Unique(base);
    LagNameInjective();
    var v := seq(|cols|, k requires 0 <= k < |cols| => Feature(LagName(cols[k]), row[cols[k]]));
    assert forall c :: c in base ==> Names(v)[FirstIndex(cols, c)] == LagName(c);
    v
  }

  /** `frame[expected]`: the columns listed in `expected`, in that order. */
  function Project(v: FeatureVector, expected: seq<string>): (r: FeatureVector)
    requires forall e :: e in expected ==> e in Names(v)
    ensures Names(r) == expected
    ensures forall k :: 0 <= k < |r| ==> Lookup(v, expected[k]) == Some(r[k].value)
  {
    seq(|expected|, k requires 0 <= k < |expected| => Feature(expected[k], Lookup(v, expected[k]).value))
  }

  /** What both front-ends load once at start-up: the historical table, the
      scaler's published column order (`None` when the scaler has no
      `feature_names_in_`), and scaling followed by prediction, abstracted as
      one function that yields the forecast or `None` when either raises. */
  datatype Resources = Resources(
    data: Table,
    expected: Option<seq<string>>,
    score: FeatureVector -> Option<real>)

  /** Why preparation stopped: the table has no `Year` column (a `KeyError`
      in the source), no row for the year, base columns missing from the
      data, or scaler columns the lag step did not produce. */
  datatype PrepError =
    | NoYearColumn
    | NoDataForYear(year: Cell)
    | MissingBaseColumns(missing: seq<string>)
    | MissingExpectedColumns(missing: seq<string>)

  /** The whole preparation step, checks in the source's order. `expected`
      is the scaler's `feature_names_in_`, `None` when it has none. */
  function Prepare(t: Table, year: Cell, base: seq<string>, expected: Option<seq<string>>)
    : (r: Result<FeatureVector, PrepError>)
    requires t.Valid()
    ensures r == Err(NoYearColumn) <==> YearColumn !in t.columns
    ensures r.Err? && r.error.NoDataForYear? <==>
              YearColumn in t.columns && !HasYear(t.rows, year)
    ensures r.Err? && r.error.NoDataForYear? ==> r.error.year == year
    ensures r.Err? && r.error.MissingBaseColumns? <==>
              && YearColumn in t.columns && HasYear(t.rows, year)
              && exists c :: c in base && c !in t.columns
    ensures r.Err? && r.error.MissingBaseColumns? ==>
              forall c :: c in r.error.missing <==> c in base && c !in t.columns
  {
    if YearColumn !in t.columns then Err(NoYearColumn)
    else
      var matching := Select(t.rows, year);
      if |matching| == 0 then Err(NoDataForYear(year))
      else
        var missing := Absent(base, t.columns);
        if |missing| > 0 then
          assert missing[0] in base && missing[0] !in t.columns;
          Err(MissingBaseColumns(missing))
        else
          var row := matching[0];
          assert row.Keys == set c | c in t.columns;
          var v := LagRow(base, row);
          match expected
          case None => Ok(v)
          case Some(cols) =>
            var missingExpected := Absent(cols, Names(v));
            if |missingExpected| > 0 then Err(MissingExpectedColumns(missingExpected))
            else Ok(Project(v, cols))
  }

  /** The feature names the lag step derives from `base`, in base order. */
  function LagNames(base: seq<string>): (ns: seq<string>)
    ensures |ns| == |base|
    ensures forall k :: 0 <= k < |base| ==> ns[k] == LagName(base[k])
  {
    seq(|base|, k requires 0 <= k < |base| => LagName(base[k]))
  }

  /** The first row recorded for `year`, which every successful preparation
      reads its values from. */
  function SourceRow(t: Table, year: Cell): Row
    requires HasYear(t.rows, year)
  {
    t.rows[FirstMatch(t.rows, year)]
  }

  /** Preparation succeeds exactly when the year has a row, every base
      column exists, and every column the scaler expects is one of the
      lagged names. */
  lemma PrepareSucceedsIff(t: Table, year: Cell, base: seq<string>, expected: Option<seq<string>>)
    requires t.Valid()
    ensures Prepare(t, year, base, expected).Ok? <==>
              && YearColumn in t.columns
              && HasYear(t.rows, year)
              && (forall c :: c in base ==> c in t.columns)
              && (expected.Some? ==> forall e :: e in expected.value ==> e in LagNames(base))
  {
    var r := Prepare(t, year, base, expected);
    if YearColumn in t.columns && HasYear(t.rows, year) && |Absent(base, t.columns)| == 0 {
      var row := Select(t.rows, year)[0];
      assert row.Keys == set c | c in t.columns;
      var v := LagRow(base, row);
      LagRowNames(base, row);
      match expected
      case None =>
        assert r == Ok(v);
      case Some(cols) =>
        NoneAbsent(cols, Names(v));
        assert r.Ok? <==> |Absent(cols, Names(v))| == 0;
    } else {
      NoneAbsent(base, t.columns);
      assert r.Err?;
    }
  }

  /** The lagged row's column names are the lag names of the base columns. */
  lemma LagRowNames(base: seq<string>, row: Row)
    requires forall c :: c in base ==> c in row
    ensures forall n :: n in Names(LagRow(base, row)) <==> n in LagNames(base)
  {
    forall n
      ensures n in LagNames(base) <==> exists c :: c in base && n == LagName(c)
    {
      if n in LagNames(base) {
        var k :| 0 <= k < |base| && LagNames(base)[k] == n;
        assert base[k] in base;
      }
      if exists c :: c in base && n == LagName(c) {
        var c :| c in base && n == LagName(c);
        var k :| 0 <= k < |base| && base[k] == c;
        assert LagNames(base)[k] == n;
      }
    }
  }

  /** A failure for missing base columns lists exactly the absent base
      columns, in base order; a failure for missing scaler columns lists
      exactly the expected names the lag step did not produce, in the
      scaler's order. */
  lemma PrepareErrorLists(t: Table, year: Cell, base: seq<string>, expected: Option<seq<string>>)
    requires t.Valid()
    ensures var r := Prepare(t, year, base, expected);
            r.Err? && r.error.MissingBaseColumns? ==> r.error.missing == Absent(base, t.columns)
    ensures var r := Prepare(t, year, base, expected);
            r.Err? && r.error.MissingExpectedColumns? ==>
              && expected.Some?
              && r.error.missing == Absent(expected.value, LagNames(base))
              && |r.error.missing| > 0
  {
    var r := Prepare(t, year, base, expected);
    if r.Err? && r.error.MissingExpectedColumns? {
      var row := Select(t.rows, year)[0];
      assert row.Keys == set c | c in t.columns;
      var v := LagRow(base, row);
      LagRowNames(base, row);
      AbsentAgrees(expected.value, Names(v), LagNames(base));
    }
  }

  /** Without a scaler column list, a preparation whose checks pass yields
      the base columns in base order: entry `k` is base column `k` renamed
      with the lag suffix, holding that column's value in the first row
      recorded for the year. */
  lemma PrepareWithoutExpected(t: Table, year: Cell, base: seq<string>)
    requires t.Valid()
    requires Distinct(base)
    requires YearColumn in t.columns && HasYear(t.rows, year)
    requires forall c :: c in base ==> c in t.columns
    ensures Prepare(t, year, base, None).Ok?
    ensures var v := Prepare(t, year, base, None).value;
            && Names(v) == LagNames(base)
            && forall k :: 0 <= k < |base| ==> base[k] in SourceRow(t, year) && v[k].value == SourceRow(t, year)[base[k]]
  {
    NoneAbsent(base, t.columns);
    UniqueOfDistinct(base);
  }

  /** With a scaler column list that the lag names cover, the vector has
      exactly those columns in that order, and each holds the first
      matching row's value of the base column it was lagged from. */
  lemma PrepareWithExpected(t: Table, year: Cell, base: seq<string>, cols: seq<string>)
    requires t.Valid()
    requires YearColumn in t.columns && HasYear(t.rows, year)
    requires forall c :: c in base ==> c in t.columns
    requires forall e :: e in cols ==> e in LagNames(base)
    ensures Prepare(t, year, base, Some(cols)).Ok?
    ensures var v := Prepare(t, year, base, Some(cols)).value;
            && Names(v) == cols
            && forall k :: 0 <= k < |cols| ==>
                 exists c :: c in base && c in SourceRow(t, year) && cols[k] == LagName(c) && v[k].value == SourceRow(t, year)[c]
  {
    PrepareSucceedsIff(t, year, base, Some(cols));
    var row := Select(t.rows, year)[0];
    assert row.Keys == set c | c in t.columns;
    var lagged := LagRow(base, row);
    var v := Prepare(t, year, base, Some(cols)).value;
    forall k | 0 <= k < |cols|
      ensures exists c :: c in base && c in row && cols[k] == LagName(c) && v[k].value == row[c]
    {
      assert cols[k] in Names(lagged);
      var c :| c in base && cols[k] == LagName(c);
      assert Lookup(lagged, cols[k]) == Some(row[c]);
    }
  }
}

=== FILE: frame.dfy ===
/** The historical dataset: an immutable table read once from the CSV file,
    with pandas' scalar comparison and row filtering. */
module Frame {

  /** One table cell as pandas holds it after reading the CSV file: an
      integer, a float, a string, or a missing value (NaN). */
  datatype Cell = Int(i: int) | Float(f: real) | Text(s: string) | Null

  /** Elementwise `==` between two scalars as pandas evaluates it: numbers
      compare by value across integer and float, strings by content, a
      number never equals a string, and NaN equals nothing, not even NaN. */
  predicate CellEq(a: Cell, b: Cell)
    ensures a.Null? || b.Null? ==> !CellEq(a, b)
    ensures a.Text? && !b.Text? ==> !CellEq(a, b)
    ensures b.Text? && !a.Text? ==> !CellEq(a, b)
    ensures a.Int? && b.Float? ==> (CellEq(a, b) <==> a.i as real == b.f)
    ensures a.Float? && b.Int? ==> (CellEq(a, b) <==> a.f == b.i as real)
    ensures a.Int? && b.Int? ==> (CellEq(a, b) <==> a.i == b.i)
    ensures a.Float? && b.Float? ==> (CellEq(a, b) <==> a.f == b.f)
    ensures a.Text? && b.Text? ==> (CellEq(a, b) <==> a.s == b.s)
  {
    match (a, b)
    case (Int(x), Int(y)) => x == y
    case (Int(x), Float(y)) => x as real == y
    case (Float(x), Int(y)) => x == y as real
    case (Float(x), Float(y)) => x == y
    case (Text(x), Text(y)) => x == y
    case _ => false
  }

  /** Cell equality is symmetric, and every cell but NaN equals itself. */
  lemma CellEqSymmetricReflexive(a: Cell, b: Cell)
    ensures CellEq(a, b) <==> CellEq(b, a)
    ensures !a.Null? ==> CellEq(a, a)
  {
  }

  /** The name of the key column holding each observation's year. */
  const YearColumn: string := "Year"

  /** A row maps each column name to its cell. */
  type Row = map<string, Cell>

  /** A data frame: its ordered column names and its rows. */
  datatype Table = Table(columns: seq<string>, rows: seq<Row>) {

    /** Every row has a cell for exactly the table's columns. */
    predicate Valid() {
      forall k :: 0 <= k < |rows| ==> rows[k].Keys == set c | c in columns
    }
  }

  /** The row's `Year` cell equals `year` (the mask `df["Year"] == year`). */
  predicate Matches(row: Row, year: Cell) {
    YearColumn in row && CellEq(row[YearColumn], year)
  }

  /** Some row of the table is recorded for `year`. */
  predicate HasYear(rows: seq<Row>, year: Cell) {
    exists k :: 0 <= k < |rows| && Matches(rows[k], year)
  }

  /** Index of the first row recorded for `year`. */
  function FirstMatch(rows: seq<Row>, year: Cell): (k: nat)
    requires HasYear(rows, year)
    ensures k < |rows| && Matches(rows[k], year)
    ensures forall j :: 0 <= j < k ==> !Matches(rows[j], year)
  {
    if Matches(rows[0], year) then 0
    else
      assert HasYear(rows[1..], year) by {
        var k :| 0 <= k < |rows| && Matches(rows[k], year);
        assert rows[1..][k - 1] == rows[k];
      }
      1 + FirstMatch(rows[1..], year)
  }

  /** The rows recorded for `year`, in table order (the boolean-mask
      selection `df[df["Year"] == year]`). */
  function Select(rows: seq<Row>, year: Cell): (r: seq<Row>)
    ensures forall row :: row in r ==> row in rows && Matches(row, year)
    ensures forall k :: 0 <= k < |rows| && Matches(rows[k], year) ==> rows[k] in r
    ensures |r| > 0 <==> HasYear(rows, year)
    ensures |r| > 0 ==> r[0] == rows[FirstMatch(rows, year)]
  {
    if |rows| == 0 then []
    else
      var rest := Select(rows[1..], year);
      assert forall k :: 1 <= k < |rows| ==> rows[k] == rows[1..][k - 1];
      if Matches(rows[0], year) then [rows[0]] + rest else rest
  }

  /** The `Year` column, one cell per row. */
  function YearValues(t: Table): (ys: seq<Cell>)
    requires t.Valid() && YearColumn in t.columns
    ensures |ys| == |t.rows|
    ensures forall k :: 0 <= k < |t.rows| ==> YearColumn in t.rows[k] && ys[k] == t.rows[k][YearColumn]
  {
    seq(|t.rows|, k requires 0 <= k < |t.rows| => t.rows[k][YearColumn])
  }

  /** Every non-missing year listed in the `Year` column selects at least
      one row: only a NaN year can come back empty. */
  lemma ListedYearHasRows(t: Table, y: Cell)
    requires t.Valid() && YearColumn in t.columns
    requires y in YearValues(t) && !y.Null?
    ensures HasYear(t.rows, y)
  {
    var ys := YearValues(t);
    var k :| 0 <= k < |ys| && ys[k] == y;
    assert Matches(t.rows[k], y);
  }
}

=== FILE: pyint.dfy ===
/** The request body as Flask's JSON parser delivers it, and Python's
    `int(...)` applied to one of its values (how the HTTP handler reads the
    requested year). */
module PyInt {
  import opened Results

  /** A parsed JSON value. `JNonFinite` is the NaN or Infinity that Python's
      JSON parser accepts; `JFloat` holds the finite double the parser
      produced from a number written with a fraction or an exponent, after
      rounding (`2021.99999999999999999` arrives as `2022.0`). */
  datatype Json =
    | JNull
    | JBool(b: bool)
    | JInt(i: int)
    | JFloat(f: real)
    | JNonFinite
    | JString(s: string)
    | JArray(items: seq<Json>)
    | JObject(fields: map<string, Json>)

  /** The C-locale whitespace `int()` skips around a numeral: space, tab,
      line feed, vertical tab, form feed and carriage return. The
      separators U+001C to U+001F are not among them, although
      `str.isspace()` accepts them. */
  predicate IsSpace(c: char) {
    c == ' ' || 0x09 <= c as int <= 0x0D
  }

  predicate AllSpace(s: string) {
    forall k :: 0 <= k < |s| ==> IsSpace(s[k])
  }

  function TrimStart(s: string): (r: string)
    ensures |r| <= |s| && r == s[|s| - |r|..]
    ensures AllSpace(s[..|s| - |r|])
    ensures |r| > 0 ==> !IsSpace(r[0])
  {
    if |s| > 0 && IsSpace(s[0]) then TrimStart(s[1..]) else s
  }

  function TrimEnd(s: string): (r: string)
    ensures |r| <= |s| && r == s[..|r|]
    ensures AllSpace(s[|r|..])
    ensures |r| > 0 ==> !IsSpace(r[|r| - 1])
  {
    if |s| > 0 && IsSpace(s[|s| - 1]) then TrimEnd(s[..|s| - 1]) else s
  }

  /** Leading and trailing whitespace removed, as `int()` skips it. */
  function Strip(s: string): string {
    TrimEnd(TrimStart(s))
  }

  predicate IsDigit(c: char) {
    '0' <= c <= '9'
  }

  /** A run of decimal digits in which single underscores may separate two
      digits, as `int()` accepts since Python 3.6: `1_000` but not `_1`,
      `1_` or `1__0`. */
  predicate ValidDigits(ds: string) {
    && |ds| > 0
    && DigitsOrUnderscores(ds)
    && IsDigit(ds[0])
    && IsDigit(ds[|ds| - 1])
    && forall k :: 0 <= k < |ds| - 1 && ds[k] == '_' ==> ds[k + 1] != '_'
  }

  predicate DigitsOrUnderscores(ds: string) {
    forall k :: 0 <= k < |ds| ==> IsDigit(ds[k]) || ds[k] == '_'
  }

  function DigitValue(c: char): nat
    requires IsDigit(c)
  {
    c as int - '0' as int
  }

  /** The number a run of digits denotes, underscores ignored. */
  function DigitsValue(ds: string): nat
    requires DigitsOrUnderscores(ds)
  {
    if |ds| == 0 then 0
    else if ds[|ds| - 1] == '_' then DigitsValue(ds[..|ds| - 1])
    else 10 * DigitsValue(ds[..|ds| - 1]) + DigitValue(ds[|ds| - 1])
  }

  /** `int(s)` for a string: surrounding whitespace, an optional sign and a
      decimal numeral; anything else raises `ValueError` (`None` here). */
  function ParseInt(s: string): (r: Option<int>)
    ensures AllSpace(s) ==> r.None?
    ensures r.Some? ==> exists k :: 0 <= k < |s| && IsDigit(s[k])
  {
    var t := Strip(s);
    StripIsSlice(s);
    ParseNumeral(t)
  }

  /** Stripping cuts a contiguous piece out of `s`, empty when `s` is all
      whitespace. */
  lemma StripIsSlice(s: string)
    ensures exists i, j :: 0 <= i <= j <= |s| && Strip(s) == s[i..j]
    ensures AllSpace(s) ==> Strip(s) == []
  {
    var a := TrimStart(s);
    var i := |s| - |a|;
    var b := TrimEnd(a);
    assert a == s[i..] && b == a[..|b|];
    assert s[i..][..|b|] == s[i..i + |b|];
    assert Strip(s) == s[i..i + |b|];
    assert |a| > 0 ==> a[0] == s[i];
  }

  /** A numeral with no surrounding whitespace: an optional sign, then
      digits. */
  function ParseNumeral(t: string): (r: Option<int>)
    ensures r.Some? ==> exists k :: 0 <= k < |t| && IsDigit(t[k])
  {
    if |t| > 0 && (t[0] == '+' || t[0] == '-') then
      var ds := t[1..];
      if ValidDigits(ds) then Some(if t[0] == '-' then -(DigitsValue(ds) as int) else DigitsValue(ds)) else None
    else if ValidDigits(t) then Some(DigitsValue(t))
    else None
  }

  function DigitChar(d: nat): (c: char)
    requires d < 10
    ensures IsDigit(c) && DigitValue(c) == d
  {
    ('0' as int + d) as char
  }

  /** The decimal numeral of a natural number, without leading zeros. */
  function ShowNat(n: nat): (s: string)
    ensures |s| > 0 && forall k :: 0 <= k < |s| ==> IsDigit(s[k])
  {
    if n < 10 then [DigitChar(n)] else ShowNat(n / 10) + [DigitChar(n % 10)]
  }

  /** The decimal numeral of an integer (Python's `str(n)`). */
  function Show(n: int): string {
    if n < 0 then "-" + ShowNat(-n) else ShowNat(n)
  }

  lemma {:induction false} ShowNatParses(n: nat)
    ensures ValidDigits(ShowNat(n))
    ensures DigitsValue(ShowNat(n)) == n
    decreases n
  {
    if n >= 10 {
      ShowNatParses(n / 10);
      var s := ShowNat(n);
      assert s[..|s| - 1] == ShowNat(n / 10);
    }
  }

  lemma {:induction false} TrimStartSpaces(pre: string, x: string)
    requires AllSpace(pre)
    requires |x| > 0 && !IsSpace(x[0])
    ensures TrimStart(pre + x) == x
    decreases |pre|
  {
    if |pre| > 0 {
      assert (pre + x)[1..] == pre[1..] + x;
      TrimStartSpaces(pre[1..], x);
    } else {
      assert pre + x == x;
    }
  }

  lemma {:induction false} TrimEndSpaces(x: string, post: string)
    requires AllSpace(post)
    requires |x| > 0 && !IsSpace(x[|x| - 1])
    ensures TrimEnd(x + post) == x
    decreases |post|
  {
    if |post| > 0 {
      assert (x + post)[..|x + post| - 1] == x + post[..|post| - 1];
      TrimEndSpaces(x, post[..|post| - 1]);
    } else {
      assert x + post == x;
    }
  }

  lemma StripPadded(pre: string, x: string, post: string)
    requires AllSpace(pre) && AllSpace(post)
    requires |x| > 0 && !IsSpace(x[0]) && !IsSpace(x[|x| - 1])
    ensures Strip(pre + x + post) == x
  {
    assert pre + x + post == pre + (x + post);
    TrimStartSpaces(pre, x + post);
    TrimEndSpaces(x, post);
  }

  /** `int()` reads back every integer's decimal numeral, whatever
      whitespace surrounds it. */
  lemma ParseShow(n: int, pre: string, post: string)
    requires AllSpace(pre) && AllSpace(post)
    ensures ParseInt(pre + Show(n) + post) == Some(n)
  {
    StripPadded(pre, Show(n), post);
    ShowParses(n);
  }

  lemma ShowParses(n: int)
    ensures ParseNumeral(Show(n)) == Some(n)
  {
    var x := Show(n);
    if n < 0 {
      ShowNatParses(-n);
      assert x[0] == '-' && x[1..] == ShowNat(-n);
      assert ValidDigits(x[1..]);
      assert ParseNumeral(x) == Some(-(DigitsValue(x[1..]) as int));
    } else {
      ShowNatParses(n);
      assert x == ShowNat(n) && IsDigit(x[0]);
      assert ParseNumeral(x) == Some(DigitsValue(x));
    }
  }

  /** The separators U+001C to U+001F are not skipped: a numeral that
      starts or ends with one does not convert. */
  lemma SeparatorRejected(c: char, s: string)
    requires 0x1C <= c as int <= 0x1F
    ensures ParseInt([c] + s) == None
    ensures ParseInt(s + [c]) == None
  {
    LeadingSeparator(c, s);
    TrailingSeparator(c, s);
  }

  lemma LeadingSeparator(c: char, s: string)
    requires 0x1C <= c as int <= 0x1F
    ensures ParseInt([c] + s) == None
  {
    var x := [c] + s;
    assert TrimStart(x) == x;
    TrimEndKeepsFirst(x);
    var t := TrimEnd(x);
    assert Strip(x) == t;
    assert t[0] == c;
  }

  lemma {:induction false} TrimEndKeepsFirst(x: string)
    requires |x| > 0 && !IsSpace(x[0])
    ensures var t := TrimEnd(x); |t| > 0 && t[0] == x[0]
    decreases |x|
  {
    if IsSpace(x[|x| - 1]) {
      TrimEndKeepsFirst(x[..|x| - 1]);
    }
  }

  lemma TrailingSeparator(c: char, s: string)
    requires 0x1C <= c as int <= 0x1F
    ensures ParseInt(s + [c]) == None
  {
    var x := s + [c];
    TrimStartKeepsLast(x);
    var b := TrimStart(x);
    assert Strip(x) == b;
    NumeralEndingInNonDigit(b);
  }

  lemma {:induction false} TrimStartKeepsLast(x: string)
    requires |x| > 0 && !IsSpace(x[|x| - 1])
    ensures var b := TrimStart(x); |b| > 0 && b[|b| - 1] == x[|x| - 1]
    decreases |x|
  {
    if IsSpace(x[0]) {
      TrimStartKeepsLast(x[1..]);
    }
  }

  lemma NumeralEndingInNonDigit(t: string)
    requires |t| > 0 && !IsDigit(t[|t| - 1])
    ensures ParseNumeral(t) == None
  {
    if |t| > 1 {
      assert t[1..][|t| - 2] == t[|t| - 1];
    }
  }

  /** Python's `int(f)` for a finite float: truncation toward zero. */
  function Trunc(f: real): (i: int)
    ensures f >= 0.0 ==> i as real <= f < i as real + 1.0
    ensures f < 0.0 ==> i as real - 1.0 < f <= i as real
  {
    if f >= 0.0 then f.Floor else -((-f).Floor)
  }

  /** `int(v)` for a JSON value: booleans count as 0 and 1, floats are
      truncated, strings parsed; `null`, lists, objects, NaN and Infinity
      raise (`None` here). */
  function ToInt(v: Json): (r: Option<int>)
    ensures v.JInt? ==> r == Some(v.i)
    ensures (v.JNull? || v.JNonFinite? || v.JArray? || v.JObject?) ==> r.None?
    ensures v.JBool? ==> r == Some(if v.b then 1 else 0)
    ensures v.JFloat? ==> r.Some? && r.value == Trunc(v.f)
    ensures v.JString? ==> r == ParseInt(v.s)
  {
    match v
    case JBool(b) => Some(if b then 1 else 0)
    case JInt(i) => Some(i)
    case JFloat(f) => Some(Trunc(f))
    case JString(s) => ParseInt(s)
    case _ => None
  }
}

=== FILE: results.dfy ===
/** Failure-carrying wrappers used throughout the model. */
module Results {

  /** An optional value: the absence of a value (Python's `None`, a failed parse). */
  datatype Option<+T> = None | Some(value: T)

  /** Either a value or a typed error, standing for a raised exception. */
  datatype Result<+T, +E> = Ok(value: T) | Err(error: E)
}

=== FILE: seqs.dfy ===
/** Sequence helpers shared by the feature preparation and the dashboard:
    distinctness, first occurrence, order-preserving de-duplication and
    the order-preserving "which of these are absent" filter. */
module Seqs {

  /** No element occurs twice. */
  predicate Distinct<T(==)>(xs: seq<T>) {
    forall i, j :: 0 <= i < j < |xs| ==> xs[i] != xs[j]
  }

  /** Position of the first occurrence of `x` in `xs`. */
  function FirstIndex<T(==)>(xs: seq<T>, x: T): (i: nat)
    requires x in xs
    ensures i < |xs| && xs[i] == x
    ensures forall j :: 0 <= j < i ==> xs[j] != x
  {
    if xs[0] == x then 0 else 1 + FirstIndex(xs[1..], x)
  }

  /** The first occurrence of `x` is the same in `xs` and in any prefix of
      `xs` that already contains `x`. */
  lemma FirstIndexPrefix<T>(xs: seq<T>, m: nat, x: T)
    requires m <= |xs| && x in xs[..m]
    ensures FirstIndex(xs, x) == FirstIndex(xs[..m], x)
  {
    var i := FirstIndex(xs, x);
    var k := FirstIndex(xs[..m], x);
    assert xs[k] == x;
    assert forall j :: 0 <= j < m ==> xs[..m][j] == xs[j];
  }

  /** The distinct elements of `xs`, each kept at its first appearance
      (pandas `Series.unique`, and the key order of a Python dict built by
      inserting `xs` in order). */
  function Unique<T(==, !new)>(xs: seq<T>): (r: seq<T>)
    ensures Distinct(r)
    ensures forall x :: x in r <==> x in xs
    ensures |r| <= |xs|
    decreases |xs|
  {
    if |xs| == 0 then []
    else
      var u := Unique(xs[..|xs| - 1]);
      var x := xs[|xs| - 1];
      assert forall y :: y in xs <==> y in xs[..|xs| - 1] || y == x by {
        assert xs == xs[..|xs| - 1] + [x];
      }
      if x in u then u else u + [x]
  }

  /** `Unique` lists the values in the order of their first appearance. */
  lemma {:induction false} UniqueFirstAppearanceOrder<T(!new)>(xs: seq<T>)
    ensures forall i, j :: 0 <= i < j < |Unique(xs)| ==>
              FirstIndex(xs, Unique(xs)[i]) < FirstIndex(xs, Unique(xs)[j])
    decreases |xs|
  {
    if |xs| > 0 {
      var pre := xs[..|xs| - 1];
      var x := xs[|xs| - 1];
      var u := Unique(pre);
      UniqueFirstAppearanceOrder(pre);
      forall y | y in u
        ensures FirstIndex(xs, y) == FirstIndex(pre, y) < |pre|
      {
        FirstIndexPrefix(xs, |pre|, y);
      }
      if x !in u {
        var i := FirstIndex(xs, x);
        assert x !in pre;
        assert forall j :: 0 <= j < |pre| ==> pre[j] == xs[j];
        assert i == |pre|;
        assert Unique(xs) == u + [x];
      } else {
        assert Unique(xs) == u;
      }
    }
  }

  /** A sequence without repetitions is its own de-duplication. */
  lemma {:induction false} UniqueOfDistinct<T(!new)>(xs: seq<T>)
    requires Distinct(xs)
    ensures Unique(xs) == xs
    decreases |xs|
  {
    if |xs| > 0 {
      var pre := xs[..|xs| - 1];
      assert Distinct(pre);
      UniqueOfDistinct(pre);
      assert xs[|xs| - 1] !in pre;
      assert xs == pre + [xs[|xs| - 1]];
    }
  }

  /** The elements of `xs` that do not occur in `present`, in the order of
      `xs` (the source's `[c for c in xs if c not in present]`). */
  function Absent(xs: seq<string>, present: seq<string>): (r: seq<string>)
    ensures forall x :: x in r <==> x in xs && x !in present
    ensures |r| <= |xs|
  {
    if |xs| == 0 then []
    else (if xs[0] in present then [] else [xs[0]]) + Absent(xs[1..], present)
  }

  /** `Absent` is a filter: it distributes over concatenation, so it keeps
      the relative order and the multiplicity of the absent elements. */
  lemma {:induction false} AbsentAppend(a: seq<string>, b: seq<string>, present: seq<string>)
    ensures Absent(a + b, present) == Absent(a, present) + Absent(b, present)
    decreases |a|
  {
    if |a| == 0 {
      assert a + b == b;
    } else {
      var head := if a[0] in present then [] else [a[0]];
      var rest := Absent(a[1..], present);
      var tail := Absent(b, present);
      AbsentAppend(a[1..], b, present);
      calc {
        Absent(a + b, present);
        == { assert (a + b)[0] == a[0] && (a + b)[1..] == a[1..] + b; }
        head + Absent(a[1..] + b, present);
        == 
        head + (rest + tail);
        == { assert head + (rest + tail) == (head + rest) + tail; }
        (head + rest) + tail;
      }
    }
  }

  /** Nothing is dropped when every element is absent. */
  lemma {:induction false} AbsentOfDisjoint(xs: seq<string>, present: seq<string>)
    requires forall x :: x in xs ==> x !in present
    ensures Absent(xs, present) == xs
    decreases |xs|
  {
    if |xs| > 0 {
      assert forall x :: x in xs[1..] ==> x in xs;
      AbsentOfDisjoint(xs[1..], present);
      assert xs == [xs[0]] + xs[1..];
    }
  }

  /** Nothing is absent exactly when every element is present. */
  lemma NoneAbsent(xs: seq<string>, present: seq<string>)
    ensures |Absent(xs, present)| == 0 <==> forall x :: x in xs ==> x in present
  {
    var m := Absent(xs, present);
    assert |m| > 0 ==> m[0] in m;
  }

  /** `Absent` only depends on which elements are present. */
  lemma {:induction false} AbsentAgrees(xs: seq<string>, p: seq<string>, q: seq<string>)
    requires forall x :: x in p <==> x in q
    ensures Absent(xs, p) == Absent(xs, q)
    decreases |xs|
  {
    if |xs| > 0 {
      AbsentAgrees(xs[1..], p, q);
    }
  }
}
